=== FILE: README.md ===
# Boundary cache and drawing mode of the geospatial map view

This project models, in Dafny, the two pieces of local logic in the map view of
the geospatial explorer (`src/components/MapComponent.tsx`, with the palettes of
`src/global_constants.ts`):

1. **The boundary feature cache merged by `loadBoundaries`.** The view keeps a
   uuid-keyed, insertion-ordered `Map` of boundary features across viewport
   fetches. A feature already cached is reused exactly as stored; a new one is
   stamped with the current boundary type and the colour pair at slot
   `Map.size % palette length` of that type's base and hover palettes. A
   clearing load starts from an empty cache and publishes only the batch;
   `clearExisting` defaults to true (line 901), so both the first load from
   the map's `load` handler (line 208) and a change of boundary type are
   clearing loads; a refresh publishes everything cached. The model
   is a pure function from (cache, batch, type, clearExisting) to (new cache,
   processed list, published list); the cache is a `map<string, Feature>` plus
   the insertion order as a `seq<string>`.
2. **The drawing-mode state machine.** The handlers `toggleDrawingMode`,
   `handleDrawStart`, `handleDrawCreate`, `handleDrawDelete`,
   `handleModeChange`, `clearPolygonResults`, `enableMapInteractions` and
   `disableMapInteractions` become functions over one record holding
   `drawingMode`, `hasPolygon`, `polygonResults`, the `polygon-results` layer,
   whether the drawing plugin holds a polygon, the plugin's mode, whether
   drag-pan and the click handlers are active, the hover filter, the popup and
   the selection.

Files: `wrappers.dfy` (Option), `geo.dfy` (the records of `src/types/geo.ts`),
`palette.dfy` (the palettes), `boundary_cache.dfy` (the cache and the merge),
`cache_properties.dfy` (properties of the merge), `drawing.dfy` (the state
machine), `drawing_properties.dfy` (its invariants and the finding below).

The batch returned by the boundary API and the cities returned by the polygon
query are parameters. A failed polygon query is `None`. Every `setData` on a map
source becomes a field or an output: the published list for `boundaries`, and
`resultsLayer` for `polygon-results`.

## Model

| member | source | states |
|---|---|---|
| `Palette.BaseColors` | src/global_constants.ts:2-30 | every base palette is non-empty, so the modulo that picks a slot is defined; the state palette has one colour, the county and city palettes ten |
| `Palette.HoverColors` | src/global_constants.ts:33-61 | each hover palette has exactly as many entries as the base palette of the same type, so a base slot is always a valid hover slot |
| `Palette.ColorIndex` | src/components/MapComponent.tsx:945-950 | the slot `size % length` is in bounds for both palettes of the type, and equals the size while the palette has not wrapped |
| `Palette.ColorIndexPeriodic` | src/global_constants.ts:4-29 | colour assignment repeats with the palette length, every ten insertions for counties and cities |
| `Palette.StateColorsConstant` | src/global_constants.ts:3-34 | whatever the cache size, a state feature gets fill `#6C8EBF` and hover `#8CA9D8` |
| `BoundaryCache.KeysAreOrdered` | src/components/MapComponent.tsx:969-970 | in a well-formed cache (distinct insertion order as long as `Map.size`) every key appears in the insertion order, so `Map.values()` visits every cached feature |
| `BoundaryCache.Stamp` | src/components/MapComponent.tsx:953-961 | a new feature keeps its geometry, uuid, slug, name and every other property; only `boundaryType` is set to the current type and the colour pair at the chosen slot is added |
| `BoundaryCache.Append` | src/components/MapComponent.tsx:943-966 | a new uuid is filed at the end of the insertion order under its stamped feature, with slot `size-before-insert % palette length`; the old entries and their order are untouched and the cache stays well-formed |
| `BoundaryCache.Insert` | src/components/MapComponent.tsx:935-966 | a cached uuid yields the stored feature and leaves the cache unchanged; a new one is appended; either way the uuid is cached afterwards under the feature returned and no other key appears |
| `BoundaryCache.ProcessBatch` | src/components/MapComponent.tsx:934-967 | processing a batch keeps the cache well-formed, only extends it (old order a prefix, old entries unchanged) and yields one processed feature per incoming feature |
| `BoundaryCache.ProcessedKeepUuids` | src/components/MapComponent.tsx:938-964 | every processed feature carries the uuid of the incoming feature at the same index, whether it came from the cache or was newly stamped |
| `BoundaryCache.Values` | src/components/MapComponent.tsx:970 | the published values are the cached features in insertion order: every cached key's feature appears, and no uuid appears twice |
| `BoundaryCache.Load` | src/components/MapComponent.tsx:926-977 | a clearing load publishes exactly the processed batch; a refresh extends the old cache and publishes every cached feature in insertion order; processed features keep their incoming uuids |
| `CacheProperties.ProcessedAreCached` | src/components/MapComponent.tsx:934-967 | every processed feature is the one the final cache files under its uuid |
| `CacheProperties.CachedKeys` | src/components/MapComponent.tsx:938-964 | after a merge the cache holds exactly the old keys plus the uuids of the batch |
| `CacheProperties.NewEntriesStamped` | src/components/MapComponent.tsx:943-964 | every entry a merge adds sits at some position p, is the stamp of the first occurrence of its uuid in the batch, and has palette slot p modulo the palette length |
| `CacheProperties.ProcessBatchSplit` | src/components/MapComponent.tsx:934-967 | merging a concatenated batch leaves the same cache as merging its first part and then its second part into the result, since the `forEach` processes features strictly left to right |
| `CacheProperties.InsertPosition` | src/components/MapComponent.tsx:943-966 | a uuid new to the cache, at its first occurrence j in the batch, is filed at position old size plus the number of distinct new uuids before j: new uuids enter the insertion order in the order of their first occurrences |
| `CacheProperties.ColourFromPosition` | src/components/MapComponent.tsx:945-964 | the processed feature of a new uuid's first occurrence is its stamp with the palette slot of whichever position the final insertion order holds that uuid at |
| `CacheProperties.NewUuidColour` | src/components/MapComponent.tsx:945-964 | the processed feature of a new uuid's first occurrence j is its stamp with the palette slot of `Map.size` at that moment: old size plus the distinct new uuids before j |
| `CacheProperties.NewUuidStamped` | src/components/MapComponent.tsx:943-966 | the processed feature of a uuid not cached before is the stamp of that uuid's first occurrence in the batch, with the slot of the new position p at which the insertion order holds that very uuid |
| `CacheProperties.KnownBatchLeavesCache` | src/components/MapComponent.tsx:938-941 | a batch whose uuids are all cached leaves the cache as it is |
| `CacheProperties.RefreshReturnsCachedAsStored` | src/components/MapComponent.tsx:938-941 | on a refresh a feature whose uuid was cached comes back exactly as stored, with its original colours and boundary type |
| `CacheProperties.RefreshGrowth` | src/components/MapComponent.tsx:938-964 | on a refresh every cached uuid stays with an unchanged feature, and the cache grows by exactly the number of distinct batch uuids that were not cached |
| `CacheProperties.ProcessedFollowsBatch` | src/components/MapComponent.tsx:934-967 | the processed list follows the batch: each processed feature is the cache's entry for its uuid, a uuid repeated within the batch yields the same feature each time, and a uuid new to the starting cache yields the stamp of its first occurrence with the slot of the position where that uuid was inserted |
| `CacheProperties.ClearingLoad` | src/components/MapComponent.tsx:926-977 | a clearing load leaves exactly the batch's distinct uuids, publishes the processed list, and does not depend on the previous cache |
| `CacheProperties.ClearingLoadColours` | src/components/MapComponent.tsx:926-964 | after a clearing load every entry, from position zero on, is the stamp of the first occurrence of its uuid with the palette slot of its position |
| `CacheProperties.RefreshPublishesCache` | src/components/MapComponent.tsx:969-977 | a refresh publishes every cached feature once, in insertion order, including every feature of the batch |
| `CacheProperties.RefreshIdempotent` | src/components/MapComponent.tsx:938-964 | refreshing a second time with the same batch gives the same cache, processed list and published list; right after a clearing load of that batch only the cache and the processed list are the same, since the clearing load published the processed list with any repeated uuids while the refresh publishes each cached feature once |
| `Drawing.DisableInteractions` | src/components/MapComponent.tsx:753-778 | with a map, drag-pan and the click handlers are off, the popup is removed and the hover filters are reset; without one nothing changes |
| `Drawing.EnableInteractions` | src/components/MapComponent.tsx:781-796 | with a map, drag-pan and the click handlers are back on and nothing else changes |
| `Drawing.ClearSelection` | src/components/MapComponent.tsx:992-1017 | nearby cities and enclosing regions are dropped; the selected feature is cleared when the map exists and left as it was otherwise; nothing else changes |
| `Drawing.ToggleDrawing` | src/components/MapComponent.tsx:711-750 | entering drawing mode clears the selection, deletes a present polygon with its results, selects polygon drawing and disables the interactions; leaving it selects the plugin's selection mode and re-enables them; neither direction changes whether the map has loaded; without a map nothing changes |
| `Drawing.DrawStart` | src/components/MapComponent.tsx:232-247 | as written: a present polygon is deleted and the results emptied, but `hasPolygon` stays set |
| `Drawing.DrawStartCorrected` | src/components/MapComponent.tsx:232-247 | corrected: deleting the polygon also clears `hasPolygon` |
| `Drawing.ModeChanged` | src/components/MapComponent.tsx:286-298 | a selection mode, with drawing mode on, leaves it and re-enables the interactions and changes nothing else, and with drawing mode off only records the plugin mode; polygon drawing runs the start handler: a present polygon and its results and layer are deleted (`hasPolygon` stays set as written, is cleared when corrected), otherwise only the plugin mode is recorded; drawing mode and interactions are kept; any other mode only records the plugin mode |
| `Drawing.DrawCreated` | src/components/MapComponent.tsx:250-267 | a create event with a feature marks the polygon present, stores the query's cities in the results and their layer (a failed query leaves them), re-enables the interactions and leaves drawing mode, and nothing else changes; an empty event changes nothing |
| `Drawing.DrawDeleted` | src/components/MapComponent.tsx:270-283 | a delete empties the results and their layer and clears `hasPolygon`, and removes the plugin's polygon; nothing else changes, drawing mode and interactions included |
| `Drawing.ClearPolygonResults` | src/components/MapComponent.tsx:1020-1038 | the results are empty and `hasPolygon` false even without a map, and nothing else changes then; with one the plugin's polygon and the layer are gone too, and nothing else changes |
| `DrawingProperties.InitSatisfiesInvariants` | src/components/MapComponent.tsx:76-82 | the initial view (not drawing, no polygon, no results) satisfies both invariants |
| `DrawingProperties.StepKeepsInv` | src/components/MapComponent.tsx:228-313 | every handler keeps the invariant: interactions on exactly when not drawing, layer equal to results, no results without a polygon, no plugin polygon unflagged |
| `DrawingProperties.RunKeepsInv` | src/components/MapComponent.tsx:711-796 | the invariant holds after any sequence of events |
| `DrawingProperties.ReachableInteractions` | src/components/MapComponent.tsx:753-796 | in every reachable view the "interactions enabled" flag is off exactly in drawing mode, and the results layer shows the results; the flag stands for drag-pan and the click handlers, which matches the program only if the widget ignores a second registration of the same handler (see "Left out") |
| `DrawingProperties.StepCorrectedKeepsMirror` | src/components/MapComponent.tsx:232-298 | with the corrected start handler every handler keeps `hasPolygon` equal to whether the plugin holds a polygon |
| `DrawingProperties.RunCorrectedKeepsMirror` | src/components/MapComponent.tsx:232-298 | with the corrected start handler that mirror holds after any sequence of events |
| `DrawingProperties.DrawStartLeavesFlagStale` | src/components/MapComponent.tsx:232-247 | as written, starting a drawing over a polygon leaves `hasPolygon` set with no polygon in the plugin; the corrected handler clears both |
| `DrawingProperties.StaleFlagReachable` | src/components/MapComponent.tsx:232-267 | the stale state is reached by: map loaded, polygon control picked, polygon finished, plugin back in simple_select, polygon control picked again |
| `DrawingProperties.DeleteMatchesClear` | src/components/MapComponent.tsx:270-283 | with a map, a `draw.delete` and the Clear Polygon button leave the same view, and clearing twice is clearing once |
| `DrawingProperties.ClearSelectionKeepsInvariants` | src/components/MapComponent.tsx:992-1017 | clearing the selection keeps both drawing invariants, and clearing twice is clearing once |
| `DrawingProperties.ToggleTwice` | src/components/MapComponent.tsx:711-750 | toggling in and straight out ends out of drawing mode with the interactions on, the plugin selecting, the selection cleared and no polygon or results |

## Findings

| source | as written | input that shows it | evidently intended | confidence | as-written member | corrected member |
|---|---|---|---|---|---|---|
| src/components/MapComponent.tsx:232-247 | `handleDrawStart` deletes the drawn polygon and empties the results but never clears `hasPolygon`; the plugin's `deleteAll` emits no `draw.delete`, so nothing else clears it | map loaded; `draw.modechange` to `draw_polygon` from the plugin's polygon control; a polygon finished (`draw.create`); `draw.modechange` back to `simple_select`; `draw.modechange` to `draw_polygon` again: `hasPolygon` is true while the plugin holds no polygon, and the Clear Polygon button stays visible | clear `hasPolygon` together with the polygon, as `toggleDrawingMode` does at lines 722-725 | medium; not executed | `Drawing.DrawStart` (exhibited by `DrawingProperties.StaleFlagReachable`) | `Drawing.DrawStartCorrected` (proved by `DrawingProperties.RunCorrectedKeepsMirror`) |

`Drawing.Apply` is the machine as written and `Drawing.ApplyCorrected` the
machine with the corrected start handler; the mirror invariant is proved for
the latter. All other invariants are proved for both.

## Left out

- Asynchrony: each `loadBoundaries` merge and each `draw.create` handling is one atomic step. The race between two overlapping loads, whose cache reset happens after the `await` (lines 919-931), is not modelled.
- The HTTP client in src/lib/api.ts is not part of this model: the fetched batch and the polygon query's cities are parameters, and a failed query is `None`.
- The viewport bounding box, zoom and the float formatting in src/lib/utils.ts are not modelled; they only shape the request.
- Map-widget and plugin calls are state updates: `setData` is the published list or `resultsLayer`; the cursor style, `addSource`/`addLayer` and the hover-filter reset after a load (lines 982-983) are not modelled.
- The `clearSelection` call inside a clearing load (line 930) is modelled as `Drawing.ClearSelection` but not composed with `BoundaryCache.Load`, which covers only the cache.
- `handleBoundaryTypeChange` (lines 1041-1046) is `BoundaryCache.Load` with the new type and `clearExisting` true only when the fetch succeeds; the loading flags are not modelled.
- The failure path of `loadBoundaries` is not modelled: a failed fetch (caught at line 984) is no `Load` step at all. Since the new type is recorded (line 1044) before the fetch and the reset (lines 926-931) only runs after it, a failed type change keeps the old type's cache and selection, and the next refresh stamps features of the new type into that cache and publishes both types together (line 977). No property here covers that sequence.
- `ready` means the map's `load` handler has run, adding the drawing plugin and the layers (lines 198-204). The references exist from mount (lines 88-96), so between mount and `load` the guards at lines 712 and 1024 already pass and `toggleDrawingMode` or `clearPolygonResults` would call the plugin and the layers before they are on the map; the model treats that window as one where handlers change nothing (except the state `clearPolygonResults` sets before its guard). Unmounting, which resets the cache (line 223), is not modelled.
- "Interactions enabled" is one boolean for drag-pan plus the two click handlers, and the properties about it are about that flag only. `enableMapInteractions` calls `map.on` (lines 788-795) without checking whether the handlers are already registered, and it runs with them already on: finishing a polygon in drawing mode enables at line 295 and again at line 838; a polygon drawn from the plugin's own control enables at line 838 while the interactions were never disabled; toggling out enables at line 748 after `trash()` at line 744 may already have done so. If the widget adds a second copy on such an `on`, the single `off` at lines 762 and 766 leaves a copy of each click handler registered, and the boundary handler's `if (drawingMode) return` guard (line 629) reads the value captured when the handlers were set up at load time, so clicks in drawing mode would not be suppressed. Whether a repeated registration is ignored is library behaviour and not modelled, so the flag matches the program only under that assumption.
- `Drawing.ToggleDrawing`: the plugin's `trash()` on leaving drawing mode is modelled as cancelling only the sketch in progress. Deleting a completed polygon arrives as a separate `draw.delete` event.
- Hover, click and popup handlers, nearby-city, region and census loading, and the rendering in src/components/Sidebar.tsx and src/pages/index.tsx are presentation or I/O and not modelled.
- Geometry is carried but never inspected; its coordinate nesting is simplified. The feature's constant `type` field is omitted.

=== FILE: boundary_cache.dfy ===
/**
 The boundary feature cache that `loadBoundaries` keeps across viewport fetches
 (src/components/MapComponent.tsx). It is a JavaScript `Map` from uuid to
 feature: a lookup table plus the order in which the keys were first inserted.
 A feature seen before is reused as stored, so it keeps its colour; a new one is
 stamped with the current boundary type and the next colour of that type's
 palette.
 */
module BoundaryCache {
  import opened Wrappers
  import opened Geo
  import opened Palette

  /** The cache: `entries` is the lookup table, `order` the keys in insertion
      order (what `Map.values()` walks). */
  datatype Cache = Cache(entries: map<string, Feature>, order: seq<string>) {

    /** The representation invariant of a JavaScript Map: every key appears
        exactly once in the insertion order, and nothing else does. */
    predicate Valid() {
      && (forall i, j :: 0 <= i < j < |order| ==> order[i] != order[j])
      && (forall i :: 0 <= i < |order| ==> order[i] in entries)
      && |entries| == |order|
      && (forall u :: u in entries ==> UuidOf(entries[u]) == u)
    }
  }

  /** `new Map()`. */
  const Empty: Cache := Cache(map[], [])

  /** The result of processing one incoming feature. */
  datatype Lookup = Lookup(cache: Cache, feature: Feature)

  /** The result of processing a whole batch. */
  datatype Merge = Merge(cache: Cache, processed: seq<Feature>)

  /** The result of one `loadBoundaries` call: the cache it leaves behind, the
      processed batch and the features it publishes to the `boundaries` source. */
  datatype LoadResult = LoadResult(cache: Cache, processed: seq<Feature>, published: seq<Feature>)

  /** The later cache `c'` grew out of `c`: the old insertion order is a prefix
      of the new one and every old entry is still there, unchanged. */
  ghost predicate Extends(c: Cache, c': Cache) {
    && |c.order| <= |c'.order|
    && c'.order[..|c.order|] == c.order
    && (forall u :: u in c.entries ==> u in c'.entries && c'.entries[u] == c.entries[u])
  }

  /** The set of uuids a batch mentions. */
  ghost function BatchUuids(batch: seq<Feature>): set<string> {
    set i | 0 <= i < |batch| :: UuidOf(batch[i])
  }

  /** Index j is where the uuid of batch[j] occurs for the first time. */
  ghost predicate FirstOccurrence(batch: seq<Feature>, j: int) {
    0 <= j < |batch| && forall i :: 0 <= i < j ==> UuidOf(batch[i]) != UuidOf(batch[j])
  }

  /** The cardinality of a set of distinct elements listed by a sequence. */
  lemma {:induction false} DistinctCount(s: seq<string>)
    requires forall i, j :: 0 <= i < j < |s| ==> s[i] != s[j]
    ensures |set x | x in s| == |s|
  {
    if |s| > 0 {
      var init := s[..|s| - 1];
      DistinctCount(init);
      assert (set x | x in s) == (set x | x in init) + {s[|s| - 1]};
      assert s[|s| - 1] !in (set x | x in init);
    }
  }

  /** In a valid cache every key appears in the insertion order, so
      `Map.values()` visits every cached feature. */
  lemma KeysAreOrdered(c: Cache)
    requires c.Valid()
    ensures forall u :: u in c.entries ==> u in c.order
  {
    DistinctCount(c.order);
    var listed := set x | x in c.order;
    assert listed <= c.entries.Keys;
    assert listed * c.entries.Keys == listed;
    assert |c.entries.Keys - listed| == 0;
    forall u | u in c.entries
      ensures u in c.order
    {
      assert u !in c.entries.Keys - listed;
    }
  }

  /** Appending a fresh uuid, filed with a feature that carries it, keeps the
      cache valid and extends it. */
  lemma AppendValid(c: Cache, u: string, g: Feature)
    requires c.Valid()
    requires u !in c.entries && UuidOf(g) == u
    ensures Cache(c.entries[u := g], c.order + [u]).Valid()
    ensures Extends(c, Cache(c.entries[u := g], c.order + [u]))
    ensures c.entries[u := g].Keys == c.entries.Keys + {u}
  {
    var c' := Cache(c.entries[u := g], c.order + [u]);
    assert u !in c.order;
    forall i, j | 0 <= i < j < |c'.order|
      ensures c'.order[i] != c'.order[j]
    {
      if j == |c.order| {
        assert c'.order[i] == c.order[i];
      }
    }
    assert c'.order[..|c.order|] == c.order;
  }

  lemma ExtendsTransitive(a: Cache, b: Cache, c: Cache)
    requires Extends(a, b) && Extends(b, c)
    ensures Extends(a, c)
  {
    assert c.order[..|a.order|] == c.order[..|b.order|][..|a.order|];
  }

  /** The processed feature for a new uuid: the incoming feature with
      `boundaryType` set to `t` and the colour pair at palette slot `k` added;
      its geometry and every other property are kept. */
  function Stamp(f: Feature, t: BoundaryType, k: nat): (g: Feature)
    requires k < |BaseColors(t)|
    ensures g.geometry == f.geometry
    ensures g.properties.slug == f.properties.slug
    ensures g.properties.uuid == f.properties.uuid
    ensures g.properties.name == f.properties.name
    ensures g.properties.extra == f.properties.extra
    ensures g.properties.boundaryType == Some(t)
    ensures g.properties.color == Some(BaseColors(t)[k])
    ensures g.properties.hoverColor == Some(HoverColors(t)[k])
  {
    Feature(f.geometry,
            f.properties.(boundaryType := Some(t),
                          color := Some(BaseColors(t)[k]),
                          hoverColor := Some(HoverColors(t)[k])))
  }

  /** The new-feature path of the map callback: the feature is stamped with
      the colour slot `Map.size % palette length` and filed under its uuid at
      the end of the insertion order. */
  function Append(c: Cache, f: Feature, t: BoundaryType): (r: Lookup)
    requires c.Valid() && UuidOf(f) !in c.entries
    ensures r.cache.Valid()
    ensures Extends(c, r.cache)
    ensures r.cache.order == c.order + [UuidOf(f)]
    ensures r.cache.entries.Keys == c.entries.Keys + {UuidOf(f)}
    ensures r.cache.entries[UuidOf(f)] == r.feature
    ensures r.feature == Stamp(f, t, ColorIndex(t, |c.order|))
  {
    var u := UuidOf(f);
    var g := Stamp(f, t, ColorIndex(t, |c.entries|));
    AppendValid(c, u, g);
    Lookup(Cache(c.entries[u := g], c.order + [u]), g)
  }

  /** The map callback of `loadBoundaries` for one incoming feature. A cached
      uuid yields the stored feature and leaves the cache alone; a new one is
      appended. Either way the uuid is cached afterwards, filed with the
      feature returned. */
  function Insert(c: Cache, f: Feature, t: BoundaryType): (r: Lookup)
    requires c.Valid()
    ensures r.cache.Valid()
    ensures Extends(c, r.cache)
    ensures UuidOf(f) in r.cache.entries && r.cache.entries[UuidOf(f)] == r.feature
    ensures UuidOf(r.feature) == UuidOf(f)
    ensures r.cache.entries.Keys == c.entries.Keys + {UuidOf(f)}
    ensures UuidOf(f) in c.entries ==> r.cache == c && r.feature == c.entries[UuidOf(f)]
    ensures UuidOf(f) !in c.entries ==> r == Append(c, f, t)
  {
    if UuidOf(f) in c.entries then
      assert c.entries.Keys + {UuidOf(f)} == c.entries.Keys;
      Lookup(c, c.entries[UuidOf(f)])
    else
      Append(c, f, t)
  }

  /** `data.features.map(...)`: processes the batch left to right, threading the
      cache through, and yields one processed feature per incoming one. */
  function ProcessBatch(c: Cache, batch: seq<Feature>, t: BoundaryType): (m: Merge)
    requires c.Valid()
    ensures m.cache.Valid()
    ensures Extends(c, m.cache)
    ensures |m.processed| == |batch|
    decreases |batch|
  {
    if |batch| == 0 then
      Merge(c, [])
    else
      var first := Insert(c, batch[0], t);
      var rest := ProcessBatch(first.cache, batch[1..], t);
      ExtendsTransitive(c, first.cache, rest.cache);
      Merge(rest.cache, [first.feature] + rest.processed)
  }

  /** Uuids match index by index after a head is put in front of both lists. */
  lemma UuidsMatchCons(ps: seq<Feature>, head: Feature, rest: seq<Feature>, batch: seq<Feature>)
    requires |batch| > 0 && ps == [head] + rest && |rest| == |batch| - 1
    requires UuidOf(head) == UuidOf(batch[0])
    requires forall i :: 0 <= i < |rest| ==> UuidOf(rest[i]) == UuidOf(batch[1..][i])
    ensures forall i :: 0 <= i < |batch| ==> UuidOf(ps[i]) == UuidOf(batch[i])
  {
    forall i | 0 < i < |batch|
      ensures UuidOf(ps[i]) == UuidOf(batch[i])
    {
      assert ps[i] == rest[i - 1] && batch[1..][i - 1] == batch[i];
    }
  }

  /** Every processed feature carries the uuid of the incoming feature it
      stands for. */
  lemma {:induction false} ProcessedKeepUuids(c: Cache, batch: seq<Feature>, t: BoundaryType)
    requires c.Valid()
    ensures forall i :: 0 <= i < |batch| ==> UuidOf(ProcessBatch(c, batch, t).processed[i]) == UuidOf(batch[i])
    decreases |batch|
  {
    if |batch| > 0 {
      var first := Insert(c, batch[0], t);
      var rest := ProcessBatch(first.cache, batch[1..], t);
      assert ProcessBatch(c, batch, t).processed == [first.feature] + rest.processed;
      ProcessedKeepUuids(first.cache, batch[1..], t);
      UuidsMatchCons(ProcessBatch(c, batch, t).processed, first.feature, rest.processed, batch);
    }
  }

  /** `Array.from(map.values())`: every cached feature, in insertion order,
      each exactly once. */
  function Values(c: Cache): (vs: seq<Feature>)
    requires c.Valid()
    ensures |vs| == |c.order|
    ensures forall i :: 0 <= i < |vs| ==> vs[i] == c.entries[c.order[i]]
    ensures forall u :: u in c.entries ==> c.entries[u] in vs
    ensures forall i, j :: 0 <= i < j < |vs| ==> UuidOf(vs[i]) != UuidOf(vs[j])
  {
    KeysAreOrdered(c);
    seq(|c.order|, i requires 0 <= i < |c.order| => c.entries[c.order[i]])
  }

  /** The cache a load starts from: a clearing load replaces it with a new Map. */
  function StartOf(c: Cache, clearExisting: bool): Cache {
    if clearExisting then Empty else c
  }

  /** The merge performed by `loadBoundaries` once the batch has arrived. A
      clearing load starts from an empty cache and publishes only the processed
      batch; any other load keeps the cache and publishes everything in it. */
  function Load(c: Cache, batch: seq<Feature>, t: BoundaryType, clearExisting: bool): (r: LoadResult)
    requires c.Valid()
    ensures r.cache.Valid()
    ensures |r.processed| == |batch|
    ensures forall i :: 0 <= i < |batch| ==> UuidOf(r.processed[i]) == UuidOf(batch[i])
    ensures clearExisting ==> r.published == r.processed
    ensures !clearExisting ==> Extends(c, r.cache)
    ensures !clearExisting ==> r.published == Values(r.cache)
  {
    var m := ProcessBatch(StartOf(c, clearExisting), batch, t);
    ProcessedKeepUuids(StartOf(c, clearExisting), batch, t);
    LoadResult(m.cache, m.processed, if clearExisting then m.processed else Values(m.cache))
  }
}

=== FILE: cache_properties.dfy ===
/**
 Properties of the boundary cache merge: what a load keeps, what it adds, how
 new features are coloured, and that repeating a refresh changes nothing.
 */
module CacheProperties {
  import opened Geo
  import opened Palette
  import opened BoundaryCache

  /** One step of ProcessBatch: the head goes through Insert, the tail through
      ProcessBatch from the resulting cache. */
  lemma ProcessBatchCons(c: Cache, batch: seq<Feature>, t: BoundaryType)
    requires c.Valid() && |batch| > 0
    ensures var first := Insert(c, batch[0], t);
            var rest := ProcessBatch(first.cache, batch[1..], t);
            && ProcessBatch(c, batch, t).cache == rest.cache
            && ProcessBatch(c, batch, t).processed == [first.feature] + rest.processed
  {
  }

  /** The head of the batch is processed into what the final cache files
      under its uuid. */
  lemma ProcessedHead(c: Cache, batch: seq<Feature>, t: BoundaryType)
    requires c.Valid() && |batch| > 0
    ensures UuidOf(batch[0]) in ProcessBatch(c, batch, t).cache.entries
    ensures ProcessBatch(c, batch, t).processed[0] == ProcessBatch(c, batch, t).cache.entries[UuidOf(batch[0])]
  {
    var first := Insert(c, batch[0], t);
    var rest := ProcessBatch(first.cache, batch[1..], t);
    ProcessBatchCons(c, batch, t);
    assert first.cache.entries[UuidOf(batch[0])] == first.feature;
    assert rest.cache.entries[UuidOf(batch[0])] == first.feature;
  }

  /** Sequence bookkeeping for a later index in ProcessedAt, kept apart from
      the definition of ProcessBatch. */
  lemma ProcessedTail(m: Merge, rest: Merge, head: Feature, batch: seq<Feature>, i: int)
    requires m.cache == rest.cache && m.processed == [head] + rest.processed
    requires 0 < i < |batch| && |rest.processed| == |batch| - 1
    requires UuidOf(batch[1..][i - 1]) in rest.cache.entries
    requires rest.processed[i - 1] == rest.cache.entries[UuidOf(batch[1..][i - 1])]
    ensures UuidOf(batch[i]) in m.cache.entries && m.processed[i] == m.cache.entries[UuidOf(batch[i])]
  {
    assert batch[1..][i - 1] == batch[i];
  }

  /** The processed feature at index i is what the final cache files under
      the uuid of batch[i]. */
  lemma {:induction false} ProcessedAt(c: Cache, batch: seq<Feature>, t: BoundaryType, i: int)
    requires c.Valid() && 0 <= i < |batch|
    ensures UuidOf(batch[i]) in ProcessBatch(c, batch, t).cache.entries
    ensures ProcessBatch(c, batch, t).processed[i] == ProcessBatch(c, batch, t).cache.entries[UuidOf(batch[i])]
    decreases i
  {
    if i == 0 {
      ProcessedHead(c, batch, t);
    } else {
      var first := Insert(c, batch[0], t);
      var rest := ProcessBatch(first.cache, batch[1..], t);
      ProcessBatchCons(c, batch, t);
      ProcessedAt(first.cache, batch[1..], t, i - 1);
      ProcessedTail(ProcessBatch(c, batch, t), rest, first.feature, batch, i);
    }
  }

  /** Every processed feature is the one the final cache files under its uuid:
      a cached feature comes back as stored, and a uuid repeated within the
      batch yields the feature created for it the first time. */
  lemma ProcessedAreCached(c: Cache, batch: seq<Feature>, t: BoundaryType)
    requires c.Valid()
    ensures forall i :: 0 <= i < |batch| ==>
              && UuidOf(batch[i]) in ProcessBatch(c, batch, t).cache.entries
              && ProcessBatch(c, batch, t).processed[i] == ProcessBatch(c, batch, t).cache.entries[UuidOf(batch[i])]
  {
    forall i | 0 <= i < |batch|
      ensures UuidOf(batch[i]) in ProcessBatch(c, batch, t).cache.entries
      ensures ProcessBatch(c, batch, t).processed[i] == ProcessBatch(c, batch, t).cache.entries[UuidOf(batch[i])]
    {
      ProcessedAt(c, batch, t, i);
    }
  }

  /** The uuids of a non-empty batch: those of its head and of its tail. */
  lemma BatchUuidsCons(batch: seq<Feature>)
    requires |batch| > 0
    ensures BatchUuids(batch) == {UuidOf(batch[0])} + BatchUuids(batch[1..])
  {
    forall u | u in BatchUuids(batch)
      ensures u in {UuidOf(batch[0])} + BatchUuids(batch[1..])
    {
      var i :| 0 <= i < |batch| && UuidOf(batch[i]) == u;
      if i > 0 {
        assert batch[1..][i - 1] == batch[i];
      }
    }
    forall u | u in BatchUuids(batch[1..])
      ensures u in BatchUuids(batch)
    {
      var i :| 0 <= i < |batch[1..]| && UuidOf(batch[1..][i]) == u;
      assert batch[i + 1] == batch[1..][i];
    }
  }

  /** Set algebra for one step of CachedKeys, kept apart from the cache facts. */
  lemma UnionStep(k: set<string>, k1: set<string>, k2: set<string>, u: string, b: set<string>, b1: set<string>)
    requires k1 == k + {u} && k2 == k1 + b1 && b == {u} + b1
    ensures k2 == k + b
  {
  }

  /** After processing, the cache holds exactly the old keys and the batch's uuids. */
  lemma {:induction false} CachedKeys(c: Cache, batch: seq<Feature>, t: BoundaryType)
    requires c.Valid()
    ensures ProcessBatch(c, batch, t).cache.entries.Keys == c.entries.Keys + BatchUuids(batch)
    decreases |batch|
  {
    if |batch| == 0 {
      assert BatchUuids(batch) == {};
    } else {
      var first := Insert(c, batch[0], t);
      var rest := ProcessBatch(first.cache, batch[1..], t);
      assert ProcessBatch(c, batch, t).cache == rest.cache;
      CachedKeys(first.cache, batch[1..], t);
      assert rest.cache.entries.Keys == first.cache.entries.Keys + BatchUuids(batch[1..]);
      BatchUuidsCons(batch);
      UnionStep(c.entries.Keys, first.cache.entries.Keys, rest.cache.entries.Keys,
                UuidOf(batch[0]), BatchUuids(batch), BatchUuids(batch[1..]));
    }
  }

  /** The positions a cache gained hold uuids it did not have before. */
  lemma NewPositionsAreFresh(c: Cache, c': Cache)
    requires c.Valid() && c'.Valid() && Extends(c, c')
    ensures forall p :: |c.order| <= p < |c'.order| ==> c'.order[p] !in c.entries
  {
    KeysAreOrdered(c);
    forall p | |c.order| <= p < |c'.order|
      ensures c'.order[p] !in c.order
    {
      forall q | 0 <= q < |c.order|
        ensures c.order[q] != c'.order[p]
      {
        assert c.order[q] == c'.order[q];
      }
    }
  }

  /** The entry at position p of the insertion order of `c'` is the first
      occurrence of its uuid in the batch, stamped with type t and the palette
      slot of position p. */
  ghost predicate StampedAt(batch: seq<Feature>, t: BoundaryType, c': Cache, p: int) {
    && 0 <= p < |c'.order|
    && c'.order[p] in c'.entries
    && exists j :: FirstOccurrence(batch, j) && UuidOf(batch[j]) == c'.order[p]
                   && c'.entries[c'.order[p]] == Stamp(batch[j], t, ColorIndex(t, p))
  }

  /** A uuid other than the head's whose first occurrence is in the tail has it
      in the whole batch, one place later. */
  lemma StampedShift(batch: seq<Feature>, t: BoundaryType, c': Cache, p: int)
    requires |batch| > 0
    requires StampedAt(batch[1..], t, c', p)
    requires c'.order[p] != UuidOf(batch[0])
    ensures StampedAt(batch, t, c', p)
  {
    var j :| FirstOccurrence(batch[1..], j) && UuidOf(batch[1..][j]) == c'.order[p]
             && c'.entries[c'.order[p]] == Stamp(batch[1..][j], t, ColorIndex(t, p));
    assert batch[j + 1] == batch[1..][j];
    forall i | 0 <= i < j + 1
      ensures UuidOf(batch[i]) != UuidOf(batch[j + 1])
    {
      if i > 0 {
        assert batch[i] == batch[1..][i - 1];
      }
    }
    assert FirstOccurrence(batch, j + 1);
  }

  /** A new head uuid lands at the end of the old order, stamped from the head. */
  lemma StampedHead(c: Cache, batch: seq<Feature>, t: BoundaryType)
    requires c.Valid()
    requires |batch| > 0 && UuidOf(batch[0]) !in c.entries
    ensures StampedAt(batch, t, ProcessBatch(c, batch, t).cache, |c.order|)
  {
    var first := Insert(c, batch[0], t);
    var rest := ProcessBatch(first.cache, batch[1..], t);
    assert ProcessBatch(c, batch, t).cache == rest.cache;
    var p := |c.order|;
    assert first.cache.order[p] == UuidOf(batch[0]);
    assert rest.cache.order[p] == first.cache.order[p];
    assert FirstOccurrence(batch, 0);
  }

  /** The old positions of an extended cache still hold the old uuids. */
  lemma OldPositionsKept(c: Cache, c': Cache)
    requires c.Valid() && Extends(c, c')
    ensures forall q :: 0 <= q < |c.order| ==> c'.order[q] == c.order[q] && c'.order[q] in c.entries
  {
    forall q | 0 <= q < |c.order|
      ensures c'.order[q] == c.order[q]
    {
      assert c'.order[q] == c'.order[..|c.order|][q];
    }
  }

  /** Colour by insertion position: every entry the batch added sits at some
      position p of the insertion order, comes from the first occurrence of its
      uuid in the batch, and carries type t and palette slot p modulo the
      palette length. */
  lemma {:induction false} NewEntriesStamped(c: Cache, batch: seq<Feature>, t: BoundaryType)
    requires c.Valid()
    ensures forall p :: |c.order| <= p < |ProcessBatch(c, batch, t).cache.order| ==>
              StampedAt(batch, t, ProcessBatch(c, batch, t).cache, p)
    decreases |batch|
  {
    if |batch| > 0 {
      var first := Insert(c, batch[0], t);
      var rest := ProcessBatch(first.cache, batch[1..], t);
      assert ProcessBatch(c, batch, t).cache == rest.cache;
      NewEntriesStamped(first.cache, batch[1..], t);
      NewPositionsAreFresh(first.cache, rest.cache);
      assert UuidOf(batch[0]) in first.cache.entries;
      forall p | |c.order| <= p < |rest.cache.order|
        ensures StampedAt(batch, t, rest.cache, p)
      {
        if p < |first.cache.order| {
          assert first.cache != c;
          assert UuidOf(batch[0]) !in c.entries;
          assert p == |c.order|;
          StampedHead(c, batch, t);
        } else {
          assert |first.cache.order| <= p < |rest.cache.order|;
          assert StampedAt(batch[1..], t, rest.cache, p);
          assert rest.cache.order[p] !in first.cache.entries;
          StampedShift(batch, t, rest.cache, p);
        }
      }
    }
  }

  /** A batch whose uuids are all cached already leaves the cache as it is. */
  lemma {:induction false} KnownBatchLeavesCache(c: Cache, batch: seq<Feature>, t: BoundaryType)
    requires c.Valid()
    requires forall i :: 0 <= i < |batch| ==> UuidOf(batch[i]) in c.entries
    ensures ProcessBatch(c, batch, t).cache == c
    decreases |batch|
  {
    if |batch| > 0 {
      assert forall i :: 0 <= i < |batch[1..]| ==> batch[1..][i] == batch[i + 1];
      KnownBatchLeavesCache(c, batch[1..], t);
    }
  }

  /** On a refresh (no clearing), a feature whose uuid was cached comes back
      exactly as stored, with its original colours and boundary type. */
  lemma RefreshReturnsCachedAsStored(c: Cache, batch: seq<Feature>, t: BoundaryType)
    requires c.Valid()
    ensures var r := Load(c, batch, t, false);
            forall i :: 0 <= i < |batch| && UuidOf(batch[i]) in c.entries ==>
              r.processed[i] == c.entries[UuidOf(batch[i])]
  {
    ProcessedAreCached(c, batch, t);
  }

  /** Set algebra for RefreshGrowth, kept apart from the cache facts. */
  lemma DisjointGrowth(k: set<string>, b: set<string>, k': set<string>)
    requires k' == k + b
    ensures |k'| == |k| + |b - k|
  {
    assert k' == k + (b - k);
    assert k !! (b - k);
  }

  /** On a refresh every cached uuid stays, with an unchanged feature, and the
      cache grows by exactly the number of distinct uuids in the batch that
      were not cached before. */
  lemma RefreshGrowth(c: Cache, batch: seq<Feature>, t: BoundaryType)
    requires c.Valid()
    ensures var r := Load(c, batch, t, false);
            && Extends(c, r.cache)
            && |r.cache.entries| == |r.cache.order| == |c.order| + |BatchUuids(batch) - c.entries.Keys|
  {
    var r := Load(c, batch, t, false);
    CachedKeys(c, batch, t);
    DisjointGrowth(c.entries.Keys, BatchUuids(batch), r.cache.entries.Keys);
  }

  /** A processed feature whose uuid was not cached at the start is the stamp
      of the first occurrence of that uuid, with the palette slot of the
      position it was inserted at. */
  lemma NewUuidStamped(c: Cache, batch: seq<Feature>, t: BoundaryType, i: int)
    requires c.Valid()
    requires 0 <= i < |batch| && UuidOf(batch[i]) !in c.entries
    ensures exists j, p :: 0 <= j <= i && FirstOccurrence(batch, j) && UuidOf(batch[j]) == UuidOf(batch[i])
                           && |c.order| <= p < |ProcessBatch(c, batch, t).cache.order|
                           && ProcessBatch(c, batch, t).cache.order[p] == UuidOf(batch[i])
                           && ProcessBatch(c, batch, t).processed[i] == Stamp(batch[j], t, ColorIndex(t, p))
  {
    var m := ProcessBatch(c, batch, t);
    ProcessedAreCached(c, batch, t);
    NewEntriesStamped(c, batch, t);
    var u := UuidOf(batch[i]);
    KeysAreOrdered(m.cache);
    var p :| 0 <= p < |m.cache.order| && m.cache.order[p] == u;
    OldPositionsKept(c, m.cache);
    assert StampedAt(batch, t, m.cache, p);
    var j :| FirstOccurrence(batch, j) && UuidOf(batch[j]) == u
             && m.cache.entries[u] == Stamp(batch[j], t, ColorIndex(t, p));
    assert j <= i;
  }

  /** NewUuidStamped for every index of the batch. */
  lemma NewUuidsStamped(c: Cache, batch: seq<Feature>, t: BoundaryType)
    requires c.Valid()
    ensures forall i :: 0 <= i < |batch| && UuidOf(batch[i]) !in c.entries ==>
              exists j, p :: && 0 <= j <= i && FirstOccurrence(batch, j) && UuidOf(batch[j]) == UuidOf(batch[i])
                             && |c.order| <= p < |ProcessBatch(c, batch, t).cache.order|
                             && ProcessBatch(c, batch, t).cache.order[p] == UuidOf(batch[i])
                             && ProcessBatch(c, batch, t).processed[i] == Stamp(batch[j], t, ColorIndex(t, p))
  {
    forall i | 0 <= i < |batch| && UuidOf(batch[i]) !in c.entries
      ensures exists j, p :: && 0 <= j <= i && FirstOccurrence(batch, j) && UuidOf(batch[j]) == UuidOf(batch[i])
                             && |c.order| <= p < |ProcessBatch(c, batch, t).cache.order|
                             && ProcessBatch(c, batch, t).cache.order[p] == UuidOf(batch[i])
                             && ProcessBatch(c, batch, t).processed[i] == Stamp(batch[j], t, ColorIndex(t, p))
    {
      NewUuidStamped(c, batch, t, i);
    }
  }

  /** Processing a batch in two pieces gives the cache processing it whole gives. */
  lemma {:induction false} ProcessBatchSplit(c: Cache, a: seq<Feature>, b: seq<Feature>, t: BoundaryType)
    requires c.Valid()
    ensures ProcessBatch(c, a + b, t).cache == ProcessBatch(ProcessBatch(c, a, t).cache, b, t).cache
    decreases |a|
  {
    if |a| == 0 {
      assert a + b == b;
    } else {
      var first := Insert(c, a[0], t);
      assert (a + b)[0] == a[0];
      assert (a + b)[1..] == a[1..] + b;
      ProcessBatchSplit(first.cache, a[1..], b, t);
    }
  }

  /** The insertion position of the uuid first occurring at index j when it is
      new: the old size plus the number of distinct new uuids before j, which is
      the value `Map.size` has when the map reaches index j. */
  ghost function InsertSlot(c: Cache, batch: seq<Feature>, j: int): nat
    requires 0 <= j <= |batch|
  {
    |c.order| + |BatchUuids(batch[..j]) - c.entries.Keys|
  }

  /** The uuid first occurring at j does not occur before j. */
  lemma NotBeforeFirst(batch: seq<Feature>, j: int)
    requires FirstOccurrence(batch, j)
    ensures UuidOf(batch[j]) !in BatchUuids(batch[..j])
  {
    forall i | 0 <= i < j
      ensures UuidOf(batch[..j][i]) != UuidOf(batch[j])
    {
      assert batch[..j][i] == batch[i];
    }
  }

  /** The size and key set after processing a batch. */
  lemma ProcessedSize(c: Cache, a: seq<Feature>, t: BoundaryType)
    requires c.Valid()
    ensures |ProcessBatch(c, a, t).cache.order| == |c.order| + |BatchUuids(a) - c.entries.Keys|
    ensures ProcessBatch(c, a, t).cache.entries.Keys == c.entries.Keys + BatchUuids(a)
  {
    RefreshGrowth(c, a, t);
    CachedKeys(c, a, t);
  }

  /** A new uuid at the head of a batch takes the next position of the order. */
  lemma HeadAppended(c: Cache, b: seq<Feature>, t: BoundaryType)
    requires c.Valid() && |b| > 0 && UuidOf(b[0]) !in c.entries
    ensures |c.order| < |ProcessBatch(c, b, t).cache.order|
    ensures ProcessBatch(c, b, t).cache.order[|c.order|] == UuidOf(b[0])
  {
    var first := Insert(c, b[0], t);
    assert first.cache.order == c.order + [UuidOf(b[0])];
    var rest := ProcessBatch(first.cache, b[1..], t);
    assert ProcessBatch(c, b, t).cache == rest.cache;
    assert rest.cache.order[..|first.cache.order|] == first.cache.order;
    assert rest.cache.order[|c.order|] == first.cache.order[|c.order|];
  }

  /** A batch's new uuids enter the insertion order left to right, in the order
      of their first occurrences: the first occurrence at index j is inserted at
      the old size plus the number of distinct new uuids before j. */
  lemma {:induction false} InsertPosition(c: Cache, batch: seq<Feature>, t: BoundaryType, j: int)
    requires c.Valid()
    requires FirstOccurrence(batch, j) && UuidOf(batch[j]) !in c.entries
    ensures InsertSlot(c, batch, j) < |ProcessBatch(c, batch, t).cache.order|
    ensures ProcessBatch(c, batch, t).cache.order[InsertSlot(c, batch, j)]
            == UuidOf(batch[j])
  {
    var a, b := batch[..j], batch[j..];
    assert a + b == batch;
    assert b[0] == batch[j];
    var c1 := ProcessBatch(c, a, t).cache;
    ProcessedSize(c, a, t);
    NotBeforeFirst(batch, j);
    assert UuidOf(b[0]) !in c1.entries.Keys;
    HeadAppended(c1, b, t);
    ProcessBatchSplit(c, a, b, t);
    var whole := ProcessBatch(c, batch, t).cache;
    assert whole == ProcessBatch(c1, b, t).cache;
    var k := InsertSlot(c, batch, j);
    assert k == |c1.order|;
  }

  /** Two first occurrences of the same uuid are the same index. */
  lemma FirstOccurrenceUnique(batch: seq<Feature>, j: int, j': int)
    requires FirstOccurrence(batch, j) && FirstOccurrence(batch, j')
    requires UuidOf(batch[j]) == UuidOf(batch[j'])
    ensures j == j'
  {
  }

  /** In a well-formed cache a uuid sits at one position only. */
  lemma PositionUnique(c: Cache, p: int, k: int)
    requires c.Valid() && 0 <= p < |c.order| && 0 <= k < |c.order|
    requires c.order[p] == c.order[k]
    ensures p == k
  {
  }

  /** A new uuid's first occurrence is stamped with the slot of the position
      at which the insertion order holds that uuid. */
  lemma {:induction false} ColourFromPosition(c: Cache, batch: seq<Feature>, t: BoundaryType, j: int, k: int)
    requires c.Valid()
    requires FirstOccurrence(batch, j) && UuidOf(batch[j]) !in c.entries
    requires 0 <= k < |ProcessBatch(c, batch, t).cache.order|
    requires ProcessBatch(c, batch, t).cache.order[k] == UuidOf(batch[j])
    ensures ProcessBatch(c, batch, t).processed[j] == Stamp(batch[j], t, ColorIndex(t, k))
  {
    var m := ProcessBatch(c, batch, t);
    NewUuidStamped(c, batch, t, j);
    var j', p :| && 0 <= j' <= j && FirstOccurrence(batch, j') && UuidOf(batch[j']) == UuidOf(batch[j])
                 && |c.order| <= p < |m.cache.order| && m.cache.order[p] == UuidOf(batch[j])
                 && m.processed[j] == Stamp(batch[j'], t, ColorIndex(t, p));
    FirstOccurrenceUnique(batch, j, j');
    PositionUnique(m.cache, p, k);
  }

  /** The colour of a new uuid, by batch index: its first occurrence at j is
      stamped with the slot of the old size plus the number of distinct new
      uuids before j, the value `Map.size` has when the map reaches index j. */
  lemma {:induction false} NewUuidColour(c: Cache, batch: seq<Feature>, t: BoundaryType, j: int)
    requires c.Valid()
    requires FirstOccurrence(batch, j) && UuidOf(batch[j]) !in c.entries
    ensures ProcessBatch(c, batch, t).processed[j]
            == Stamp(batch[j], t, ColorIndex(t, InsertSlot(c, batch, j)))
  {
    InsertPosition(c, batch, t, j);
    ColourFromPosition(c, batch, t, j, InsertSlot(c, batch, j));
  }

  /** Every processed feature carries its incoming uuid and is what the cache
      files under it, so a uuid repeated within the batch yields one feature.
      A uuid not cached at the start yields the stamp of its first occurrence,
      coloured by the position at which it was inserted. */
  lemma ProcessedFollowsBatch(c: Cache, batch: seq<Feature>, t: BoundaryType, clearExisting: bool)
    requires c.Valid()
    ensures forall i :: 0 <= i < |batch| ==>
              && UuidOf(batch[i]) in Load(c, batch, t, clearExisting).cache.entries
              && Load(c, batch, t, clearExisting).processed[i]
                 == Load(c, batch, t, clearExisting).cache.entries[UuidOf(batch[i])]
    ensures forall i, j :: 0 <= i < |batch| && 0 <= j < |batch| && UuidOf(batch[i]) == UuidOf(batch[j]) ==>
              Load(c, batch, t, clearExisting).processed[i] == Load(c, batch, t, clearExisting).processed[j]
    ensures forall i :: 0 <= i < |batch| && UuidOf(batch[i]) !in StartOf(c, clearExisting).entries ==>
              exists j, p :: && 0 <= j <= i && FirstOccurrence(batch, j) && UuidOf(batch[j]) == UuidOf(batch[i])
                             && |StartOf(c, clearExisting).order| <= p < |Load(c, batch, t, clearExisting).cache.order|
                             && Load(c, batch, t, clearExisting).cache.order[p] == UuidOf(batch[i])
                             && Load(c, batch, t, clearExisting).processed[i] == Stamp(batch[j], t, ColorIndex(t, p))
  {
    var start := StartOf(c, clearExisting);
    var m := ProcessBatch(start, batch, t);
    assert Load(c, batch, t, clearExisting).cache == m.cache;
    assert Load(c, batch, t, clearExisting).processed == m.processed;
    ProcessedAreCached(start, batch, t);
    NewUuidsStamped(start, batch, t);
  }

  /** A clearing load forgets the previous cache: it holds exactly the batch's
      distinct uuids and publishes the processed batch, and its outcome does
      not depend on the old cache. */
  lemma ClearingLoad(c: Cache, c': Cache, batch: seq<Feature>, t: BoundaryType)
    requires c.Valid() && c'.Valid()
    ensures Load(c, batch, t, true).cache.entries.Keys == BatchUuids(batch)
    ensures |Load(c, batch, t, true).cache.order| == |BatchUuids(batch)|
    ensures Load(c, batch, t, true).published == Load(c, batch, t, true).processed
    ensures Load(c', batch, t, true) == Load(c, batch, t, true)
  {
    var m := ProcessBatch(Empty, batch, t);
    assert Load(c, batch, t, true) == LoadResult(m.cache, m.processed, m.processed);
    CachedKeys(Empty, batch, t);
  }

  /** After a clearing load every entry, from position zero on, is the stamp of
      the first occurrence of its uuid with the palette slot of its position. */
  lemma ClearingLoadColours(c: Cache, batch: seq<Feature>, t: BoundaryType)
    requires c.Valid()
    ensures forall p :: 0 <= p < |Load(c, batch, t, true).cache.order| ==>
              StampedAt(batch, t, Load(c, batch, t, true).cache, p)
  {
    assert Load(c, batch, t, true).cache == ProcessBatch(Empty, batch, t).cache;
    NewEntriesStamped(Empty, batch, t);
  }

  /** A refresh publishes every cached feature once, in insertion order, and
      that includes every feature of the batch just processed. */
  lemma RefreshPublishesCache(c: Cache, batch: seq<Feature>, t: BoundaryType)
    requires c.Valid()
    ensures var r := Load(c, batch, t, false);
            && |r.published| == |r.cache.order|
            && (forall i :: 0 <= i < |r.published| ==> r.published[i] == r.cache.entries[r.cache.order[i]])
            && (forall i, j :: 0 <= i < j < |r.published| ==> UuidOf(r.published[i]) != UuidOf(r.published[j]))
            && (forall i :: 0 <= i < |batch| ==> r.processed[i] in r.published)
  {
    var r := Load(c, batch, t, false);
    ProcessedAreCached(c, batch, t);
    forall i | 0 <= i < |batch|
      ensures r.processed[i] in r.published
    {
      var u := UuidOf(batch[i]);
      KeysAreOrdered(r.cache);
      var p :| 0 <= p < |r.cache.order| && r.cache.order[p] == u;
      assert r.published[p] == r.processed[i];
    }
  }

  /** Refreshing with the same batch a second time changes nothing: the cache,
      the processed list and the published list are those of the first refresh.
      Right after a clearing load of that batch only the cache and the processed
      list are the same: the clearing load published the processed list, repeats
      included, while the refresh publishes each cached feature once. */
  lemma RefreshIdempotent(c: Cache, batch: seq<Feature>, t: BoundaryType, clearExisting: bool)
    requires c.Valid()
    ensures var r := Load(c, batch, t, clearExisting);
            var r2 := Load(r.cache, batch, t, false);
            && r2.cache == r.cache
            && r2.processed == r.processed
            && (!clearExisting ==> r2 == r)
  {
    var start := StartOf(c, clearExisting);
    var r := Load(c, batch, t, clearExisting);
    var r2 := Load(r.cache, batch, t, false);
    ProcessedAreCached(start, batch, t);
    KnownBatchLeavesCache(r.cache, batch, t);
    ProcessedAreCached(r.cache, batch, t);
    assert r2.processed == r.processed;
  }
}

=== FILE: drawing.dfy ===
/**
 The drawing-mode state machine of the map view
 (src/components/MapComponent.tsx). The view's React state (`drawingMode`,
 `hasPolygon`, `polygonResults`, the selection), the parts of the map widget it
 drives (the `polygon-results` source, the hover filter, the popup, and whether
 drag-pan and the click handlers are active) and what the drawing plugin holds
 form one record; every handler is a function from record to record.
 */
module Drawing {
  import opened Wrappers
  import opened Geo

  /** The drawing plugin's modes, as reported by `draw.modechange`. */
  datatype DrawMode = DrawPolygon | SimpleSelect | DirectSelect | OtherMode(name: string)

  datatype View = View(
    ready: bool,                      // the map has loaded and carries the plugin and layers
    drawingMode: bool,
    hasPolygon: bool,
    polygonResults: seq<NearbyCity>,
    resultsLayer: seq<NearbyCity>,    // the data of the `polygon-results` source
    pluginPolygon: bool,              // the plugin holds a completed polygon
    pluginMode: DrawMode,
    interactionsEnabled: bool,        // drag-pan and the click handlers are on
    hovered: Option<string>,          // uuid the hover filters select, if any
    popupOpen: bool,
    nearbyCities: seq<NearbyCity>,
    regions: Option<Region>,
    selectedFeature: Option<string>)

  /** The view after mount, before the map's `load` event has added the
      drawing plugin and the layers. */
  const Init: View := View(false, false, false, [], [], false, SimpleSelect, true, None, false, [], None, None)

  /** The events the view reacts to. `DrawCreate` carries the number of features
      in the event and the outcome of the polygon query (None when it failed). */
  datatype Event =
    | MapLoaded
    | Toggle
    | ModeChange(mode: DrawMode)
    | DrawCreate(featureCount: nat, fetched: Option<seq<NearbyCity>>)
    | DrawDelete
    | ClearPolygon

  /** disableMapInteractions: drag-pan and the click handlers off, popup removed,
      hover filters reset. Nothing happens without a map. */
  function DisableInteractions(s: View): (s': View)
    ensures s.ready ==> !s'.interactionsEnabled && s'.hovered == None && !s'.popupOpen
    ensures s.ready ==> s' == s.(interactionsEnabled := false, hovered := None, popupOpen := false)
    ensures !s.ready ==> s' == s
  {
    if !s.ready then s else s.(interactionsEnabled := false, hovered := None, popupOpen := false)
  }

  /** enableMapInteractions: drag-pan and the click handlers back on. */
  function EnableInteractions(s: View): (s': View)
    ensures s.ready ==> s' == s.(interactionsEnabled := true)
    ensures !s.ready ==> s' == s
  {
    if !s.ready then s else s.(interactionsEnabled := true)
  }

  /** clearSelection: the nearby cities and enclosing regions are dropped; with
      a map, the selected-feature source is emptied too. */
  function ClearSelection(s: View): (s': View)
    ensures s'.nearbyCities == [] && s'.regions == None
    ensures s.ready ==> s'.selectedFeature == None
    ensures !s.ready ==> s'.selectedFeature == s.selectedFeature
    ensures s' == s.(nearbyCities := [], regions := None, selectedFeature := s'.selectedFeature)
  {
    s.(nearbyCities := [], regions := None,
       selectedFeature := if s.ready then None else s.selectedFeature)
  }

  /** The plugin's deleteAll together with emptying the results and their layer. */
  function DropPolygon(s: View): View {
    s.(pluginPolygon := false, polygonResults := [], resultsLayer := [])
  }

  /** toggleDrawingMode. Entering drawing mode clears the selection, deletes a
      polygon that is present, puts the plugin into polygon drawing and disables
      the interactions. Leaving it cancels the sketch, returns the plugin to
      selection and enables the interactions. */
  function ToggleDrawing(s: View): (s': View)
    ensures !s.ready ==> s' == s
    ensures s.ready && !s.drawingMode ==>
              && s'.drawingMode && s'.pluginMode == DrawPolygon && !s'.interactionsEnabled
              && s'.nearbyCities == [] && s'.regions == None && s'.selectedFeature == None
              && s'.hovered == None && !s'.popupOpen && s'.ready
              && (s.hasPolygon ==> !s'.hasPolygon && !s'.pluginPolygon && s'.polygonResults == [] && s'.resultsLayer == [])
              && (!s.hasPolygon ==> s'.pluginPolygon == s.pluginPolygon && s'.polygonResults == s.polygonResults
                                    && s'.resultsLayer == s.resultsLayer && s'.hasPolygon == s.hasPolygon)
    ensures s.ready && s.drawingMode ==>
              s' == s.(drawingMode := false, pluginMode := SimpleSelect, interactionsEnabled := true)
  {
    if !s.ready then s
    else if !s.drawingMode then
      var entered := ClearSelection(s.(drawingMode := true));
      var cleared := if s.hasPolygon then DropPolygon(entered).(hasPolygon := false) else entered;
      DisableInteractions(cleared.(pluginMode := DrawPolygon))
    else
      EnableInteractions(s.(drawingMode := false, pluginMode := SimpleSelect))
  }

  /** handleDrawStart as written: a polygon that is present is deleted and the
      results emptied, but `hasPolygon` is left as it was. */
  function DrawStart(s: View): (s': View)
    ensures s.hasPolygon ==> !s'.pluginPolygon && s'.polygonResults == [] && s'.resultsLayer == [] && s'.hasPolygon
    ensures !s.hasPolygon ==> s' == s
  {
    if s.hasPolygon then DropPolygon(s) else s
  }

  /** handleDrawStart corrected: deleting the polygon also clears `hasPolygon`. */
  function DrawStartCorrected(s: View): (s': View)
    ensures s.hasPolygon ==> !s'.pluginPolygon && s'.polygonResults == [] && s'.resultsLayer == [] && !s'.hasPolygon
    ensures !s.hasPolygon ==> s' == s
  {
    if s.hasPolygon then DropPolygon(s).(hasPolygon := false) else s
  }

  /** handleModeChange, given the handler for the start of a drawing. Entering
      polygon drawing runs that handler; a selection mode leaves drawing mode,
      and re-enables the interactions, only if drawing mode was on. */
  function ModeChanged(s: View, m: DrawMode, corrected: bool): (s': View)
    ensures !s.ready ==> s' == s
    ensures s.ready && (m == SimpleSelect || m == DirectSelect) ==>
              && !s'.drawingMode
              && (s.drawingMode ==> s'.interactionsEnabled)
              && (s.drawingMode ==> s' == s.(pluginMode := m, drawingMode := false, interactionsEnabled := true))
              && (!s.drawingMode ==> s' == s.(pluginMode := m))
    ensures s.ready && m.OtherMode? ==> s' == s.(pluginMode := m)
    ensures s.ready && m == DrawPolygon ==>
              s'.drawingMode == s.drawingMode && s'.interactionsEnabled == s.interactionsEnabled
    ensures s.ready && m == DrawPolygon && s.hasPolygon ==>
              && !s'.pluginPolygon && s'.polygonResults == [] && s'.resultsLayer == []
              && s'.hasPolygon == !corrected
              && s' == s.(pluginMode := m, pluginPolygon := false, polygonResults := [], resultsLayer := [],
                          hasPolygon := !corrected)
    ensures s.ready && m == DrawPolygon && !s.hasPolygon ==> s' == s.(pluginMode := m)
  {
    if !s.ready then s
    else
      var s0 := s.(pluginMode := m);
      match m
      case DrawPolygon => if corrected then DrawStartCorrected(s0) else DrawStart(s0)
      case SimpleSelect => if s.drawingMode then EnableInteractions(s0.(drawingMode := false)) else s0
      case DirectSelect => if s.drawingMode then EnableInteractions(s0.(drawingMode := false)) else s0
      case OtherMode(_) => s0
  }

  /** handleDrawCreate followed by fetchPolygonResults: an event with at least
      one feature marks the polygon present, stores the query's cities (a
      failed query leaves the results alone), re-enables the interactions and
      leaves drawing mode. An empty event changes nothing. */
  function DrawCreated(s: View, featureCount: nat, fetched: Option<seq<NearbyCity>>): (s': View)
    ensures !s.ready || featureCount == 0 ==> s' == s
    ensures s.ready && featureCount > 0 ==>
              && s'.hasPolygon && s'.pluginPolygon && !s'.drawingMode && s'.interactionsEnabled
              && (fetched.Some? ==> s'.polygonResults == fetched.value && s'.resultsLayer == fetched.value)
              && (fetched.None? ==> s'.polygonResults == s.polygonResults && s'.resultsLayer == s.resultsLayer)
    ensures s.ready && featureCount > 0 ==>
              var results := if fetched.Some? then fetched.value else s.polygonResults;
              var layer := if fetched.Some? then fetched.value else s.resultsLayer;
              s' == s.(hasPolygon := true, pluginPolygon := true, drawingMode := false, interactionsEnabled := true,
                       polygonResults := results, resultsLayer := layer)
  {
    if !s.ready || featureCount == 0 then s
    else
      var marked := s.(hasPolygon := true, pluginPolygon := true);
      var stored := match fetched
        case Some(cities) => marked.(polygonResults := cities, resultsLayer := cities)
        case None => marked;
      EnableInteractions(stored).(drawingMode := false)
  }

  /** handleDrawDelete: the results and their layer are emptied and the polygon
      is gone. */
  function DrawDeleted(s: View): (s': View)
    ensures s.ready ==> s'.polygonResults == [] && s'.resultsLayer == [] && !s'.hasPolygon && !s'.pluginPolygon
    ensures s.ready ==> s'.drawingMode == s.drawingMode && s'.interactionsEnabled == s.interactionsEnabled
    ensures !s.ready ==> s' == s
    ensures s.ready ==> s' == s.(polygonResults := [], resultsLayer := [], hasPolygon := false, pluginPolygon := false)
  {
    if !s.ready then s else DropPolygon(s).(hasPolygon := false)
  }

  /** clearPolygonResults: the results and `hasPolygon` are cleared first, even
      without a map; with one, the plugin's polygons and the layer go too. */
  function ClearPolygonResults(s: View): (s': View)
    ensures s'.polygonResults == [] && !s'.hasPolygon
    ensures s.ready ==> !s'.pluginPolygon && s'.resultsLayer == []
    ensures s'.drawingMode == s.drawingMode && s'.interactionsEnabled == s.interactionsEnabled
    ensures !s.ready ==> s' == s.(polygonResults := [], hasPolygon := false)
    ensures s.ready ==> s' == s.(polygonResults := [], resultsLayer := [], hasPolygon := false, pluginPolygon := false)
  {
    var s1 := s.(polygonResults := [], hasPolygon := false);
    if !s.ready then s1 else DropPolygon(s1)
  }

  /** The view's reaction to one event, handleDrawStart as written. */
  function Apply(s: View, e: Event): View {
    Step(s, e, false)
  }

  /** The view's reaction to one event with the corrected handleDrawStart. */
  function ApplyCorrected(s: View, e: Event): View {
    Step(s, e, true)
  }

  function Step(s: View, e: Event, corrected: bool): View {
    match e
    case MapLoaded => s.(ready := true)
    case Toggle => ToggleDrawing(s)
    case ModeChange(m) => ModeChanged(s, m, corrected)
    case DrawCreate(n, fetched) => DrawCreated(s, n, fetched)
    case DrawDelete => DrawDeleted(s)
    case ClearPolygon => ClearPolygonResults(s)
  }

  /** The view after a sequence of events. */
  function Run(s: View, events: seq<Event>, corrected: bool): View
    decreases |events|
  {
    if |events| == 0 then s else Run(Step(s, events[0], corrected), events[1..], corrected)
  }
}

=== FILE: drawing_properties.dfy ===
/**
 What the drawing-mode handlers keep true over any sequence of events, and how
 the as-written start-of-drawing handler lets `hasPolygon` go stale.
 */
module DrawingProperties {
  import opened Wrappers
  import opened Drawing

  /** The facts every reachable view satisfies, with either start handler:
      the interactions are on exactly when drawing mode is off, the results
      layer shows the results, there are no results without a polygon, a
      polygon held by the plugin is reflected in `hasPolygon`, and nothing
      polygon-related happens before the map exists. */
  ghost predicate Inv(s: View) {
    && (s.interactionsEnabled <==> !s.drawingMode)
    && s.resultsLayer == s.polygonResults
    && (!s.hasPolygon ==> s.polygonResults == [])
    && (s.pluginPolygon ==> s.hasPolygon)
    && (!s.ready ==> !s.drawingMode && !s.hasPolygon && !s.pluginPolygon)
  }

  /** With the corrected start handler, `hasPolygon` also implies that the
      plugin holds a polygon: the flag mirrors the plugin exactly. */
  ghost predicate InvCorrected(s: View) {
    Inv(s) && (s.hasPolygon ==> s.pluginPolygon)
  }

  lemma InitSatisfiesInvariants()
    ensures Inv(Init) && InvCorrected(Init)
  {
  }

  /** Every handler keeps Inv, whichever start handler is used. */
  lemma StepKeepsInv(s: View, e: Event, corrected: bool)
    requires Inv(s)
    ensures Inv(Step(s, e, corrected))
  {
  }

  /** With the corrected start handler every handler also keeps the mirror. */
  lemma StepCorrectedKeepsMirror(s: View, e: Event)
    requires InvCorrected(s)
    ensures InvCorrected(ApplyCorrected(s, e))
  {
  }

  /** Inv holds after any sequence of events from a view satisfying it. */
  lemma {:induction false} RunKeepsInv(s: View, events: seq<Event>, corrected: bool)
    requires Inv(s)
    ensures Inv(Run(s, events, corrected))
    decreases |events|
  {
    if |events| > 0 {
      StepKeepsInv(s, events[0], corrected);
      RunKeepsInv(Step(s, events[0], corrected), events[1..], corrected);
    }
  }

  /** The mirror holds after any sequence of events under the corrected handler. */
  lemma {:induction false} RunCorrectedKeepsMirror(s: View, events: seq<Event>)
    requires InvCorrected(s)
    ensures InvCorrected(Run(s, events, true))
    decreases |events|
  {
    if |events| > 0 {
      StepCorrectedKeepsMirror(s, events[0]);
      RunCorrectedKeepsMirror(ApplyCorrected(s, events[0]), events[1..]);
    }
  }

  /** In every reachable view the interactions flag is off exactly in drawing
      mode, and the results layer shows the results. */
  lemma ReachableInteractions(events: seq<Event>, corrected: bool)
    ensures var s := Run(Init, events, corrected);
            (s.interactionsEnabled <==> !s.drawingMode) && s.resultsLayer == s.polygonResults
  {
    RunKeepsInv(Init, events, corrected);
  }

  /** As written, starting a new drawing over a polygon deletes the polygon but
      leaves `hasPolygon` set, so the view claims a polygon the plugin no
      longer holds; the corrected handler keeps them in step. */
  lemma DrawStartLeavesFlagStale(s: View)
    requires s.ready && s.hasPolygon
    ensures Apply(s, ModeChange(DrawPolygon)).hasPolygon
    ensures !Apply(s, ModeChange(DrawPolygon)).pluginPolygon
    ensures !ApplyCorrected(s, ModeChange(DrawPolygon)).hasPolygon
    ensures !ApplyCorrected(s, ModeChange(DrawPolygon)).pluginPolygon
  {
  }

  /** A concrete run reaching the stale state, as the plugin reports it: load
      the map, pick the plugin's polygon control, finish a polygon (the query
      returns no cities), let the plugin fall back to simple_select, then pick
      the polygon control again. */
  lemma StaleFlagReachable()
    ensures var s := Run(Init, StaleRun(), false);
            s.hasPolygon && !s.pluginPolygon
    ensures var s := Run(Init, StaleRun(), true);
            !s.hasPolygon && !s.pluginPolygon
  {
  }

  /** The event sequence of `StaleFlagReachable`. */
  function StaleRun(): seq<Event> {
    [MapLoaded, ModeChange(DrawPolygon), DrawCreate(1, Some([])), ModeChange(SimpleSelect), ModeChange(DrawPolygon)]
  }

  /** With a map, a `draw.delete` and the Clear Polygon button leave the same view. */
  lemma DeleteMatchesClear(s: View)
    requires s.ready
    ensures DrawDeleted(s) == ClearPolygonResults(s)
    ensures ClearPolygonResults(ClearPolygonResults(s)) == ClearPolygonResults(s)
  {
  }

  /** Toggling into drawing mode and straight back out leaves the view out of
      drawing mode with the interactions on, the plugin selecting, the
      selection cleared and any polygon that was present deleted. */
  lemma ToggleTwice(s: View)
    requires Inv(s) && s.ready && !s.drawingMode
    ensures var s2 := ToggleDrawing(ToggleDrawing(s));
            && !s2.drawingMode && s2.interactionsEnabled && s2.pluginMode == SimpleSelect
            && s2.nearbyCities == [] && s2.regions == None && s2.selectedFeature == None
            && !s2.hasPolygon && !s2.pluginPolygon && s2.polygonResults == []
  {
  }

  /** Clearing the selection touches none of the drawing state, so it keeps
      both invariants, and clearing twice is clearing once. */
  lemma ClearSelectionKeepsInvariants(s: View)
    ensures Inv(s) ==> Inv(ClearSelection(s))
    ensures InvCorrected(s) ==> InvCorrected(ClearSelection(s))
    ensures ClearSelection(ClearSelection(s)) == ClearSelection(s)
  {
  }
}

=== FILE: geo.dfy ===
/**
 The records that cross the API boundary, reduced to what the boundary cache and
 the drawing state machine look at (src/types/geo.ts).
 */
module Geo {
  import opened Wrappers

  /** The three kinds of administrative boundary the map can show. */
  datatype BoundaryType = State | County | City

  datatype Position = Position(lng: real, lat: real)

  /** A GeoJSON geometry. Neither the cache nor the state machine inspects it;
      it is only carried along, so the nesting of the coordinates is simplified. */
  datatype Geometry = Geometry(kind: string, coordinates: seq<seq<Position>>)

  /** The properties of a boundary feature. `boundaryType`, `color` and
      `hoverColor` are optional because the API does not have to send them;
      `extra` holds every other property, which the cache keeps untouched. */
  datatype Properties = Properties(
    slug: string,
    uuid: string,
    name: string,
    boundaryType: Option<BoundaryType>,
    color: Option<string>,
    hoverColor: Option<string>,
    extra: map<string, string>)

  datatype Feature = Feature(geometry: Geometry, properties: Properties)

  /** A city returned by the nearby-city and polygon queries. */
  datatype NearbyCity = NearbyCity(uuid: string, name: string, lat: real, lng: real, distanceKm: real)

  /** The regions enclosing a clicked point; every part is optional. */
  datatype Region = Region(city: Option<string>, msa: Option<string>, county: Option<string>)

  function UuidOf(f: Feature): string {
    f.properties.uuid
  }
}

=== FILE: palette.dfy ===
/**
 The per-type colour palettes of src/global_constants.ts. Each boundary type has
 a base palette and a hover palette; the hover colour at index k is the lighter
 version of the base colour at index k.
 */
module Palette {
  import opened Geo

  /** BOUNDARY_COLORS: the fill colours handed out to new features of a type. */
  function BaseColors(t: BoundaryType): (p: seq<string>)
    ensures |p| > 0
    ensures t == State ==> |p| == 1
    ensures t != State ==> |p| == 10
  {
    match t
    case State => ["#6C8EBF"]
    case County => ["#D79B00", "#E69900", "#FFA500", "#FF9900", "#ED7D31",
                    "#F4B183", "#DFA67B", "#C65911", "#B45F06", "#A47B3D"]
    case City => ["#82B366", "#97D077", "#74A057", "#9AC483", "#69BE7B",
                  "#8BBD5C", "#B1E0A1", "#57A857", "#60A15A", "#76B947"]
  }

  /** BOUNDARY_HOVER_COLORS: index for index, the hover colours of BaseColors(t). */
  function HoverColors(t: BoundaryType): (p: seq<string>)
    ensures |p| == |BaseColors(t)|
  {
    match t
    case State => ["#8CA9D8"]
    case County => ["#E8B974", "#F7CC8F", "#FFD180", "#FFCC80", "#F8BCA0",
                    "#FAD5B6", "#EFCFB1", "#E5AD8F", "#DCB997", "#CDBCA1"]
    case City => ["#A6D895", "#C2E6AD", "#A6CFA0", "#C6DBC1", "#A6DCB7",
                  "#B6D699", "#D2EFC9", "#9DD09D", "#9DC096", "#ADDA8F"]
  }

  /** The palette slot for a feature inserted when the cache holds `size`
      entries: the size modulo the length of the type's base palette. It is a
      valid index into both palettes of the type. */
  function ColorIndex(t: BoundaryType, size: nat): (k: nat)
    ensures k < |BaseColors(t)| && k < |HoverColors(t)|
    ensures size < |BaseColors(t)| ==> k == size
  {
    size % |BaseColors(t)|
  }

  /** The colour assignment repeats with the length of the palette: ten
      insertions for counties and cities, every insertion for states. */
  lemma ColorIndexPeriodic(t: BoundaryType, size: nat)
    ensures ColorIndex(t, size + |BaseColors(t)|) == ColorIndex(t, size)
    ensures t != State ==> ColorIndex(t, size + 10) == ColorIndex(t, size)
  {
  }

  /** A state palette has one slot, so every state feature gets the same pair. */
  lemma StateColorsConstant(size: nat)
    ensures BaseColors(State)[ColorIndex(State, size)] == "#6C8EBF"
    ensures HoverColors(State)[ColorIndex(State, size)] == "#8CA9D8"
  {
  }
}

=== FILE: wrappers.dfy ===
/** Optional values: the model's stand-in for TypeScript's optional fields and `null`. */
module Wrappers {

  datatype Option<+T> = None | Some(value: T)
}
